=== FILE: README.md ===
# Simulated annealing in C++: a Dafny model

This project models the core of a small simulated-annealing library:

- the cooling schedules of `cooling.hpp` (`Cooling`, `LinearCooling`, `GeometricCooling`), in module `Cooling` (`cooling.dfy`);
- the reference 0/1 knapsack problem of `problem.hpp` (`Knapsack`), in module `Knapsack` (`knapsack.dfy`);
- the engine of `sa.hpp` (`SimulatedAnnealing`: the constructor, `solve`, `acceptCost`, `calculateInitialTemperature`), in module `Annealing` (`annealing.dfy`);
- the few facts about products and quotients of reals that the termination proof needs, in module `RealArith` (`realarith.dfy`).

A schedule is a datatype over exact `real`s, tagged with the subclass whose `cool()` it uses.
A knapsack state is a `seq<bool>`. Its cost is the total value of the selected items, minus 1000 for every unit of weight over the capacity.

The engine sees its problem only through the `Problem` interface. It is therefore written over a record of the interface's operations, and `KnapsackProblem` plugs the knapsack in.

Every random quantity is a parameter, an oracle:

- `pick(k)` is the k-th raw index draw behind a neighbour.
- `accept(k, delta, temp)` is the Metropolis test `exp(-delta / temp) > U(0,1)` at inner step k, made only when delta >= 0.
- `improves(k, delta, temp)` is the squared-error comparison of the calibration pass at draw k.
- `bit(i)` is the i-th flag of a random initial state.

`solve` is modelled twice:

- as the method `Solve`, which mirrors the source's loops;
- as the reference function `Trace`, which describes the main loop after n passes.

`Solve` is proved equal to `Trace`. The main loop's termination is proved, not assumed. A converging schedule becomes inactive after `Cooling.Bound` calls to `cool()`:

- linear cooling with alpha > 0;
- geometric cooling with 0 < alpha < 1 and a positive floor, via Bernoulli's inequality.

## Model

| member | source | states |
|---|---|---|
| Cooling.Default | cooling.hpp:9-10 | the default schedule starts at 100, stops at 10, has alpha 0.995, is active and is already at its start temperature |
| Cooling.Make | cooling.hpp:11-13 | the three-argument constructor stores its arguments, starts the current temperature at the start temperature, and is active exactly when start > min |
| Cooling.SetStartTemperature | cooling.hpp:18-21 | start and current temperature both become t; the floor, alpha and subclass are kept |
| Cooling.SetMinTemperature | cooling.hpp:23-25 | only the floor changes; the schedule is then active exactly when the current temperature exceeds the new floor |
| Cooling.IsActive | cooling.hpp:27-29 | a schedule is active exactly when its current temperature is above the floor |
| Cooling.Temperature | cooling.hpp:31-33 | the current temperature, read without changing the schedule |
| Cooling.Reset | cooling.hpp:35-38 | after reset the temperature is the start temperature and nothing but the current temperature changed; active iff start > min |
| Cooling.ResetAfterCooling | cooling.hpp:35-38 | reset after any number of cool() calls gives the same schedule as reset before them, at the start temperature |
| Cooling.ResetIdempotent | cooling.hpp:35-38 | resetting twice is resetting once |
| Cooling.Cool | cooling.hpp:53-68 | cool() of either subclass changes only the current temperature: minus alpha for linear, times alpha for geometric |
| Cooling.LinearCoolDecreases | cooling.hpp:53-56 | linear cooling with alpha > 0 strictly lowers the temperature |
| Cooling.GeometricCoolDecreases | cooling.hpp:65-68 | geometric cooling of a positive temperature with 0 < alpha < 1 strictly lowers it and keeps it positive |
| Cooling.CoolKeepsInactive | cooling.hpp:27-29 | a converging schedule that is inactive stays inactive after cool() |
| Cooling.CoolNShift | cooling.hpp:53-68 | cooling n times after one cool() is cooling n + 1 times |
| Cooling.LinearTemperature | cooling.hpp:53-56 | after n linear cool() calls the temperature has dropped by exactly n * alpha |
| Cooling.GeometricTemperature | cooling.hpp:65-68 | after n geometric cool() calls the temperature is the start value scaled n times by alpha |
| Cooling.StaysInactive | cooling.hpp:27-29 | once a converging schedule is inactive, no number of further cool() calls reactivates it |
| Cooling.EventuallyInactive | cooling.hpp:27-29 | a converging schedule is inactive after Bound(c) or more cool() calls |
| Cooling.InactiveFrom | cooling.hpp:27-29 | a converging schedule has a call count from which on isActive() is false for good |
| Knapsack.Penalise | problem.hpp:120-126 | feasible iff weight <= capacity; a feasible cost is the raw value; otherwise 1000 per unit over is subtracted; at the capacity the penalty is 0, one unit over it is 1000 |
| Knapsack.Cost | problem.hpp:109-127 | getStateCost is feasible iff the selected weight is within capacity; a feasible state's cost is its value, an infeasible state's cost is strictly below its value |
| Knapsack.StateCost | problem.hpp:109-127 | the accumulating loop computes exactly the reference cost |
| Knapsack.InstanceSize | problem.hpp:128-130 | the instance size is the length of every state the instance builds |
| Knapsack.InitialState | problem.hpp:86-88 | the initial state has one flag per item, all unselected |
| Knapsack.InitialStateScore | problem.hpp:86-126 | the empty knapsack costs 0 and is feasible |
| Knapsack.RandomInitialState | problem.hpp:89-98 | the random initial state has one flag per item and flag i is the i-th draw |
| Knapsack.Flip | problem.hpp:105-106 | the flipped state has the same length, flag i negated, and every other flag unchanged |
| Knapsack.FlipTwice | problem.hpp:105-106 | flipping the same flag twice gives the original state |
| Knapsack.RandomIndexAsWritten | problem.hpp:137-140 | the draw as written lies in [0, n], both ends included |
| Knapsack.RandomIndexAsWrittenOutOfRange | problem.hpp:137-140 | the draw as written can be n, which is not an index of a state of length n |
| Knapsack.RandomIndex | problem.hpp:137-140 | the intended draw lies in [0, n) |
| Knapsack.RandomIndexCovers | problem.hpp:137-140 | the intended draw can reach every index |
| Knapsack.Neighbour | problem.hpp:99-108 | the neighbour belongs to the instance and differs from the state in exactly one flag |
| Knapsack.NeighbourUndo | problem.hpp:99-108 | flipping the drawn index again restores the state |
| Knapsack.NeighbourTotals | problem.hpp:99-118 | a neighbour's weight and value differ from the state's by exactly the flipped item's, down if it was selected and up if not |
| Knapsack.TotalFlip | problem.hpp:115-118 | flipping flag i moves a selected total by exactly vals[i] |
| Knapsack.TotalNone | problem.hpp:115-118 | a state with nothing selected totals 0 |
| Knapsack.MainInstance | main.cpp:14-18 | the instance of the example program is well formed and has ten items |
| Annealing.Start | sa.hpp:104-106 | solve starts with the starting state as both current and best state, and the best cost is its cost |
| Annealing.Step | sa.hpp:114-126 | an improving neighbour is always taken; otherwise the acceptance draw decides, and a rejected neighbour leaves the state unchanged; the best state and cost move to the neighbour exactly when it costs strictly more than the best cost, and stay as they are otherwise |
| Annealing.Pass | sa.hpp:113-127 | an inner loop never lowers the best cost and keeps it equal to the best state's cost |
| Annealing.Evaluated | sa.hpp:113-127 | a pass of count steps evaluates count neighbours, the first drawn from the current state at the pass's first draw |
| Annealing.EvaluatedBound | sa.hpp:116-126 | no neighbour evaluated in a pass costs more than the best cost after the pass |
| Annealing.PassSnoc | sa.hpp:113-127 | one more inner step extends a pass at its end, at the next draw |
| Annealing.EvaluatedSnoc | sa.hpp:113-127 | one more inner step appends the neighbour drawn from the pass's current state at the next draw |
| Annealing.InnerStep | sa.hpp:114-126 | one iteration of the inner loop computes the reference step and reports the neighbour it evaluated |
| Annealing.InnerLoop | sa.hpp:113-127 | the inner loop computes the reference pass; the neighbours it evaluates are exactly the reference list, in order, and each costs at most the final best cost |
| Annealing.Trace | sa.hpp:110-131 | after n passes the history has exactly n entries, the last being the current state's cost, and the best cost has not dropped |
| Annealing.TraceSeen | sa.hpp:110-131 | the neighbours evaluated in n passes number exactly the draws made, pass by pass in order |
| Annealing.TraceSeenBound | sa.hpp:110-131 | no neighbour evaluated in the first n passes costs more than the best cost after them |
| Annealing.TraceEntries | sa.hpp:130 | a recorded history entry never changes: entry j is the current state's cost after pass j + 1 |
| Annealing.MainStep | sa.hpp:113-130 | one main-loop iteration extends the reference by one pass and one cool(), makes inner more draws without lowering the best cost, and appends exactly that pass's evaluated neighbours |
| Annealing.Solve | sa.hpp:102-134 | solve equals the reference for as many passes as the schedule stays active, and ends with the schedule inactive; the best cost is the best state's cost, is at least the starting cost and at least every evaluated neighbour's cost; the evaluated neighbours are exactly the reference list, one per draw; an inactive schedule gives an empty history |
| Annealing.Candidate | sa.hpp:157 | every candidate temperature jj * jj + 1 is at least 1 |
| Annealing.FirstImprovesRound | sa.hpp:155-167 | the very first comparison is the first round's comparison at iteration 0, step 0, so its success is a success of the round |
| Annealing.NoneBeforeNext | sa.hpp:155-176 | finishing an iteration with no successful comparison reaches the next iteration with none |
| Annealing.CalibrationIteration | sa.hpp:157-172 | an iteration chooses only its candidate temperature and keeps a chosen one; while nothing in the first round has succeeded it examines the round's drifting state at the round's draws, and ends having ruled out each of its comparisons |
| Annealing.CalibrationRound | sa.hpp:155-177 | a round chooses only candidates, at least 1, none without candidates or inner steps; the first round chooses a temperature whenever some comparison of it, taken in order, succeeds |
| Annealing.CalibrateTemperature | sa.hpp:144-184 | a chosen temperature is one of the candidates, at least 1, and becomes start and current temperature with the floor at a tenth of it; no temperature is chosen when there are no candidates or no inner steps; one is chosen when there is an outer round and some comparison of the first round succeeds, in particular the very first |
| Annealing.Construct | sa.hpp:18-38 | the defaults are 50 inner loops and 33 calibration iterations, and the starting state is a random initial state |
| Annealing.NewSolver | sa.hpp:18-39 | innerLoops keeps the value passed in on both branches; without calibration the schedule is kept and the start is a random initial state; with calibration the start temperature is at least 1, the floor is a tenth of it and the schedule is active; calibration fails without candidates or inner steps and succeeds when some comparison of its first round does |
| Annealing.CalibratedConverges | sa.hpp:180-181 | a calibrated schedule has a positive floor, so it converges when its alpha does |
| Annealing.MainProgram | main.cpp:12-22 | the example program calibrates a geometric schedule (70, 0.01, 0.995) on the example knapsack and solves it: whenever calibration succeeds, solve ends after at least one pass and keeps the best cost equal to the best state's cost; calibration succeeds when some comparison of its first round, of 33 iterations of 50 steps, succeeds |
| Annealing.MainFirstIterationDeltas | sa.hpp:158-163 | on the example instance every comparison of the first iteration has a negative delta, minus the drawn item's value |
| Annealing.MainSecondIterationDelta | sa.hpp:158-176 | on the example instance the first comparison of the second iteration has a positive delta, the item's value, when its draw picks the item the first iteration's closing move added |
| Annealing.KnapsackProblem | problem.hpp:86-127 | the adapter's operations are the knapsack's on states of the instance, and its neighbours stay states of the instance |
| Annealing.KnapsackPass | sa.hpp:113-127 | knapsack inner loops keep the current and best states within the instance |
| Annealing.KnapsackTrace | sa.hpp:102-131 | annealing a knapsack keeps the best cost equal to getStateCost of the best state and at least the starting state's |

## Left out

- Randomness: `std::mt19937_64`, the uniform distributions and `std::random_device` are replaced by the oracles listed above. The seed `randomState` is not modelled.
- `acceptProbability` and `std::exp` are left out. `acceptCost` is the oracle `accept`, and the squared-error comparison of the calibration (sa.hpp:166-167) is the oracle `improves`.
- Floating point: temperatures are exact reals and costs exact integers. Rounding and underflow of `double` are not modelled, so a geometric temperature never rounds to 0.
- Annealing.Solve: requires the schedule to be inactive or converging (`Annealing.Valid`). Active linear schedules with alpha <= 0 never end. Active geometric schedules with alpha >= 1 or a floor <= 0 need not end: a positive temperature above a positive floor with alpha >= 1 never drops, and on exact reals a positive temperature never reaches a floor of 0 (with doubles it can underflow to 0). Geometric schedules with alpha <= 0 are excluded too, although with a positive floor they end after one cool(), which takes a positive temperature to 0 or below.
- Annealing.Solve: for a schedule inactive on entry, its contract states only that the history is empty. That the best state is then the starting state follows from its first ensures, because the reference `Trace` at 0 passes is the starting search.
- Annealing.CalibrateTemperature: its outer rounds are bounded by `fuel`, and it returns None when they run out. The source's `while (bestTemp < 1)` (sa.hpp:154) has no bound and can run forever.
- Annealing.CalibrateTemperature: the candidate `jj * jj + 1` is computed exactly; the `size_t` wrap-around for huge jj is not modelled.
- Annealing.NewSolver: the source sets `innerLoops = 2 * size` after calibration, but that line (sa.hpp:35) writes the constructor's parameter, not the member. The model follows the code: the member keeps the passed value.
- Annealing.KnapsackProblem: on a shorter or empty state, the source's neighbour can be undefined behaviour (an out-of-range write, when the draw reaches the state's length); on a longer state it flips one of the first n + 1 flags. The adapter returns every state of another length, and the empty state, unchanged. Its cost is 0 on a state of another length. The source's `getStateCost` sums over the state's own flags (problem.hpp:115-118): a partial sum on a shorter state, and out-of-range reads of `costs` and `weights` on a longer one. The engine never asks for such a neighbour of a knapsack state of a non-empty instance.
- Knapsack.Neighbour: uses the intended draw `RandomIndex`; see Findings for the draw as written.
- Annealing.Trace: the engine's `getStateCost` is modelled by its first component only; `solve` never reads the feasibility flag.
- `bestCost` is -1 before `solve` (sa.hpp:31) and is read only after it; the model has no object before `solve`.
- `getBestCost` and `getBestState` are the fields of `Solve`'s outcome.
- Ownership and polymorphism: `unique_ptr`/`shared_ptr`, `dynamic_pointer_cast` and the `State` class hierarchy are left out.
- `size_t` weights and costs summed in a `double` are summed exactly as `nat`. They are exact in the source only while the sums stay below 2^53.
- main.cpp: its instance data (`Knapsack.MainInstance`) and its wiring (`Annealing.MainProgram`) are modelled. Its printing of the history length and the best cost is left out.
- Annealing.MainProgram: it is not shown that main.cpp's calibration ends. `exp` is left out, so whether a comparison succeeds is the oracle `improves`. Starting from `bestProbability = 0` (sa.hpp:149), a comparison succeeds exactly when `exp(-delta / temp)` lies strictly between 0 and 1, which on exact reals means delta > 0. `MainFirstIterationDeltas` shows that no comparison of the first iteration has one, so the very first comparison always fails there. `MainSecondIterationDelta` gives a positive delta in the second iteration when the draws pick the same item. With doubles the comparison fails much earlier: once delta is about 38 times the temperature, p <= 2^-55, so 0.5 - p rounds to 0.5 and both squares are 0.25. The second-iteration comparison of `MainSecondIterationDelta` (temperature 2, delta at least 253) therefore fails with doubles. On this instance a worsening comparison can succeed with doubles only from iteration 3 on.
- Annealing.MainProgram: does not state that the calibrated starting state belongs to the instance, so `Annealing.KnapsackTrace` is not applied to the program's run.

## Findings

| source | as written | input that shows it | evidently intended | confidence | as-written member | corrected member |
|---|---|---|---|---|---|---|
| problem.hpp:137-140, 106 | `getRandomIndex` draws from `uniform_int_distribution(0, weights.size())`, which includes `weights.size()` | any instance with n items, when the draw yields n: `neighbour[n]` is written out of range | an index in [0, n), i.e. an upper bound of `weights.size() - 1` | not executed | Knapsack.RandomIndexAsWritten (Knapsack.RandomIndexAsWrittenOutOfRange) | Knapsack.RandomIndex (Knapsack.RandomIndexCovers, Knapsack.Neighbour) |

=== FILE: annealing.dfy ===
/** The annealing engine of sa.hpp.

The engine talks to its problem only through the `Problem` interface, so it
is modelled over a record of the interface's operations; `KnapsackProblem`
plugs in the knapsack of problem.hpp. Every random quantity the source draws
is an oracle parameter:
  - `pick(k)` is the k-th raw draw behind `getRandomNeighbourOfState`, so the
    k-th neighbour the engine asks for is `neighbour(s, pick(k))`;
  - `accept(k, delta, temp)` is the outcome of `acceptCost` at step k, i.e.
    whether exp(-delta / temp) exceeded the uniform draw;
  - `improves(k, delta, temp)` is the squared-error comparison of the
    calibration pass at draw k;
  - `bit(i)` is the i-th flag of `getRandomInitialState`.
 */
module Annealing {

  import opened Knapsack
  import Cooling

  datatype Option<T> = None | Some(value: T)

  /** The `Problem` interface as the engine uses it: `getInitialState`,
      `getRandomInitialState` and `getRandomNeighbourOfState` with their
      draws made explicit, and the first half of `getStateCost`. */
  datatype Problem = Problem(initial: State, randomInitial: (nat -> bool) -> State,
                             neighbour: (State, nat) -> State, cost: State -> int)

  /** The state of `solve`'s loop: the current state, the best state and its
      cost. */
  datatype Search = Search(state: State, best: State, bestCost: int)

  /** Where `solve`'s main loop stands after some passes: its search, the
      history so far, and how many neighbour draws it has made. */
  datatype Outcome = Outcome(search: Search, history: seq<int>, draws: nat)

  /** A `SimulatedAnnealing` object after construction. */
  datatype Solver = Solver(cooling: Cooling.Schedule, problem: Problem, innerLoops: nat,
                           randomIterations: nat, start: State)

  /** The result of `calculateInitialTemperature`: the tuned schedule and the
      starting state it returns. */
  datatype Calibration = Calibration(cooling: Cooling.Schedule, start: State)

  /** Default number of steps per temperature. */
  const DefaultInnerLoops: nat := 50

  /** Default number of candidate temperatures per calibration round. */
  const DefaultRandomIterations: nat := 33

  /** bestCost is the cost of the best state. */
  predicate Tracks(prob: Problem, s: Search) {
    s.bestCost == prob.cost(s.best)
  }

  /** The search `solve` starts from: the starting state is current and best. */
  function Start(prob: Problem, s: State): (r: Search)
    ensures r.state == s && r.best == s && Tracks(prob, r)
  {
    Search(s, s, prob.cost(s))
  }

  /** One iteration of `solve`'s inner loop at temperature temp, step k. */
  function Step(prob: Problem, temp: real, s: Search, k: nat, pick: nat -> nat,
                accept: (nat, int, real) -> bool): (r: Search)
    ensures var n := prob.neighbour(s.state, pick(k));
            var delta := prob.cost(s.state) - prob.cost(n);
            // a better neighbour is always taken
            (delta < 0 ==> r.state == n) &&
            // otherwise the acceptance draw decides
            (delta >= 0 && accept(k, delta, temp) ==> r.state == n) &&
            (delta >= 0 && !accept(k, delta, temp) ==> r.state == s.state)
    // the best state moves only on a strictly better cost
    ensures var n := prob.neighbour(s.state, pick(k));
            prob.cost(n) > s.bestCost ==> r.best == n && r.bestCost == prob.cost(n)
    ensures var n := prob.neighbour(s.state, pick(k));
            prob.cost(n) <= s.bestCost ==> r.best == s.best && r.bestCost == s.bestCost
    ensures Tracks(prob, s) ==> Tracks(prob, r)
  {
    var n := prob.neighbour(s.state, pick(k));
    var stateCost := prob.cost(s.state);
    var neighbourCost := prob.cost(n);
    var delta := stateCost - neighbourCost;
    var next := if delta < 0 || accept(k, delta, temp) then n else s.state;
    if neighbourCost > s.bestCost then Search(next, n, neighbourCost)
    else Search(next, s.best, s.bestCost)
  }

  /** `count` inner steps at one temperature, from step k on. */
  function Pass(prob: Problem, temp: real, s: Search, k: nat, count: nat, pick: nat -> nat,
                accept: (nat, int, real) -> bool): (r: Search)
    ensures r.bestCost >= s.bestCost
    ensures Tracks(prob, s) ==> Tracks(prob, r)
    decreases count
  {
    if count == 0 then s
    else Pass(prob, temp, Step(prob, temp, s, k, pick, accept), k + 1, count - 1, pick, accept)
  }

  /** The neighbours that `count` inner steps from step k on evaluate, in
      order: the first is drawn from the current state, the rest by the
      following steps. */
  function Evaluated(prob: Problem, temp: real, s: Search, k: nat, count: nat, pick: nat -> nat,
                     accept: (nat, int, real) -> bool): (e: seq<State>)
    ensures |e| == count
    ensures count > 0 ==> e[0] == prob.neighbour(s.state, pick(k))
    decreases count
  {
    if count == 0 then []
    else [prob.neighbour(s.state, pick(k))] +
         Evaluated(prob, temp, Step(prob, temp, s, k, pick, accept), k + 1, count - 1, pick, accept)
  }

  /** No neighbour an inner loop evaluates costs more than the best cost the
      loop ends with. */
  lemma {:induction false} EvaluatedBound(prob: Problem, temp: real, s: Search, k: nat, count: nat,
                                          pick: nat -> nat, accept: (nat, int, real) -> bool)
    ensures forall j :: 0 <= j < count ==>
              prob.cost(Evaluated(prob, temp, s, k, count, pick, accept)[j])
              <= Pass(prob, temp, s, k, count, pick, accept).bestCost
    decreases count
  {
    if count > 0 {
      var next := Step(prob, temp, s, k, pick, accept);
      var e := Evaluated(prob, temp, s, k, count, pick, accept);
      var rest := Evaluated(prob, temp, next, k + 1, count - 1, pick, accept);
      var last := Pass(prob, temp, next, k + 1, count - 1, pick, accept);
      assert e == [prob.neighbour(s.state, pick(k))] + rest;
      assert Pass(prob, temp, s, k, count, pick, accept) == last;
      EvaluatedBound(prob, temp, next, k + 1, count - 1, pick, accept);
      forall j | 0 <= j < count
        ensures prob.cost(e[j]) <= last.bestCost
      {
        if j > 0 {
          assert e[j] == rest[j - 1];
        }
      }
    }
  }

  /** One more inner step extends a pass at its end. */
  lemma {:induction false} PassSnoc(prob: Problem, temp: real, s: Search, k: nat, n: nat,
                                    pick: nat -> nat, accept: (nat, int, real) -> bool)
    ensures Pass(prob, temp, s, k, n + 1, pick, accept)
            == Step(prob, temp, Pass(prob, temp, s, k, n, pick, accept), k + n, pick, accept)
    decreases n
  {
    if n > 0 {
      PassSnoc(prob, temp, Step(prob, temp, s, k, pick, accept), k + 1, n - 1, pick, accept);
    }
  }

  /** One more inner step appends the neighbour it draws from the state the
      pass has reached. */
  lemma {:induction false} EvaluatedSnoc(prob: Problem, temp: real, s: Search, k: nat, n: nat,
                                         pick: nat -> nat, accept: (nat, int, real) -> bool)
    ensures Evaluated(prob, temp, s, k, n + 1, pick, accept)
            == Evaluated(prob, temp, s, k, n, pick, accept)
               + [prob.neighbour(Pass(prob, temp, s, k, n, pick, accept).state, pick(k + n))]
    decreases n
  {
    if n > 0 {
      var next := Step(prob, temp, s, k, pick, accept);
      EvaluatedSnoc(prob, temp, next, k + 1, n - 1, pick, accept);
      var first := [prob.neighbour(s.state, pick(k))];
      var mid := Evaluated(prob, temp, next, k + 1, n - 1, pick, accept);
      var tail := [prob.neighbour(Pass(prob, temp, next, k + 1, n - 1, pick, accept).state, pick(k + n))];
      assert first + (mid + tail) == (first + mid) + tail;
    }
  }

  /** The reference for `solve`'s main loop after n passes: pass j runs the
      inner steps at the temperature of the schedule cooled j times, then
      records the current state's cost. */
  function Trace(prob: Problem, c: Cooling.Schedule, s: Search, inner: nat, pick: nat -> nat,
                 accept: (nat, int, real) -> bool, n: nat): (r: Outcome)
    ensures |r.history| == n
    ensures r.search.bestCost >= s.bestCost
    ensures Tracks(prob, s) ==> Tracks(prob, r.search)
    ensures n > 0 ==> r.history[n - 1] == prob.cost(r.search.state)
    decreases n
  {
    if n == 0 then Outcome(s, [], 0)
    else
      var prev := Trace(prob, c, s, inner, pick, accept, n - 1);
      var temp := Cooling.Temperature(Cooling.CoolN(c, n - 1));
      var next := Pass(prob, temp, prev.search, prev.draws, inner, pick, accept);
      Outcome(next, prev.history + [prob.cost(next.state)], prev.draws + inner)
  }

  /** The neighbours `solve`'s main loop evaluates in its first n passes, in
      order: one per draw. */
  function TraceSeen(prob: Problem, c: Cooling.Schedule, s: Search, inner: nat, pick: nat -> nat,
                     accept: (nat, int, real) -> bool, n: nat): (e: seq<State>)
    ensures |e| == Trace(prob, c, s, inner, pick, accept, n).draws
    decreases n
  {
    if n == 0 then []
    else
      var prev := Trace(prob, c, s, inner, pick, accept, n - 1);
      var temp := Cooling.Temperature(Cooling.CoolN(c, n - 1));
      TraceSeen(prob, c, s, inner, pick, accept, n - 1) +
      Evaluated(prob, temp, prev.search, prev.draws, inner, pick, accept)
  }

  /** One more pass of the main loop, in terms of the passes before it. */
  lemma TraceNext(prob: Problem, c: Cooling.Schedule, s: Search, inner: nat, pick: nat -> nat,
                  accept: (nat, int, real) -> bool, n: nat)
    ensures var prev := Trace(prob, c, s, inner, pick, accept, n);
            var temp := Cooling.Temperature(Cooling.CoolN(c, n));
            var next := Pass(prob, temp, prev.search, prev.draws, inner, pick, accept);
            Trace(prob, c, s, inner, pick, accept, n + 1)
            == Outcome(next, prev.history + [prob.cost(next.state)], prev.draws + inner) &&
            TraceSeen(prob, c, s, inner, pick, accept, n + 1)
            == TraceSeen(prob, c, s, inner, pick, accept, n) +
               Evaluated(prob, temp, prev.search, prev.draws, inner, pick, accept)
  {
  }

  /** Two runs of neighbours, each within its own bound, stay within the
      larger bound together. */
  lemma AppendWithin(prob: Problem, a: seq<State>, b: seq<State>, lo: int, hi: int)
    requires lo <= hi
    requires forall j :: 0 <= j < |a| ==> prob.cost(a[j]) <= lo
    requires forall j :: 0 <= j < |b| ==> prob.cost(b[j]) <= hi
    ensures forall j :: 0 <= j < |a + b| ==> prob.cost((a + b)[j]) <= hi
  {
    forall j | 0 <= j < |a + b|
      ensures prob.cost((a + b)[j]) <= hi
    {
      if j >= |a| {
        assert (a + b)[j] == b[j - |a|];
      }
    }
  }

  /** No neighbour evaluated in the first n passes costs more than the best
      cost after them. */
  lemma {:induction false} TraceSeenBound(prob: Problem, c: Cooling.Schedule, s: Search, inner: nat,
                                          pick: nat -> nat, accept: (nat, int, real) -> bool, n: nat)
    ensures forall j :: 0 <= j < |TraceSeen(prob, c, s, inner, pick, accept, n)| ==>
              prob.cost(TraceSeen(prob, c, s, inner, pick, accept, n)[j])
              <= Trace(prob, c, s, inner, pick, accept, n).search.bestCost
    decreases n
  {
    if n > 0 {
      TraceSeenBound(prob, c, s, inner, pick, accept, n - 1);
      var prev := Trace(prob, c, s, inner, pick, accept, n - 1);
      var temp := Cooling.Temperature(Cooling.CoolN(c, n - 1));
      EvaluatedBound(prob, temp, prev.search, prev.draws, inner, pick, accept);
      TraceNext(prob, c, s, inner, pick, accept, n - 1);
      AppendWithin(prob, TraceSeen(prob, c, s, inner, pick, accept, n - 1),
                   Evaluated(prob, temp, prev.search, prev.draws, inner, pick, accept),
                   prev.search.bestCost, Trace(prob, c, s, inner, pick, accept, n).search.bestCost);
    }
  }

  /** Entries, once recorded, stay: entry j of any longer trace is the cost of
      the current state after pass j + 1. */
  lemma {:induction false} TraceEntries(prob: Problem, c: Cooling.Schedule, s: Search, inner: nat,
                                        pick: nat -> nat, accept: (nat, int, real) -> bool,
                                        n: nat, j: nat)
    requires j < n
    ensures Trace(prob, c, s, inner, pick, accept, n).history[j]
            == prob.cost(Trace(prob, c, s, inner, pick, accept, j + 1).search.state)
    decreases n
  {
    if j < n - 1 {
      TraceEntries(prob, c, s, inner, pick, accept, n - 1, j);
    }
  }

  /** What `solve` needs of its schedule: inactive, or converging so that the
      main loop ends. */
  predicate Valid(sv: Solver) {
    !Cooling.IsActive(sv.cooling) || Cooling.Converges(sv.cooling)
  }

  /** The body of `solve`'s inner loop: draw a neighbour, compare costs, move
      on improvement or acceptance, and remember a strictly better best. */
  method InnerStep(prob: Problem, temp: real, s: Search, k: nat, pick: nat -> nat,
                   accept: (nat, int, real) -> bool)
    returns (r: Search, ghost neighbour: State)
    ensures r == Step(prob, temp, s, k, pick, accept)
    ensures neighbour == prob.neighbour(s.state, pick(k))
  {
    var state := s.state;
    var best := s.best;
    var bestCost := s.bestCost;
    var n := prob.neighbour(state, pick(k));
    var stateCost := prob.cost(state);
    var neighbourCost := prob.cost(n);
    var deltaCost := stateCost - neighbourCost;
    if deltaCost < 0 || accept(k, deltaCost, temp) {
      state := n;
    }
    if neighbourCost > bestCost {
      bestCost := neighbourCost;
      best := n;
    }
    r := Search(state, best, bestCost);
    neighbour := n;
  }

  /** `solve`'s inner loop: `count` steps at temperature temp from step k on.
      The ghost `seen` lists the neighbours it evaluates, in order. */
  method InnerLoop(prob: Problem, temp: real, s: Search, k: nat, count: nat, pick: nat -> nat,
                   accept: (nat, int, real) -> bool)
    returns (r: Search, ghost seen: seq<State>)
    ensures r == Pass(prob, temp, s, k, count, pick, accept)
    ensures seen == Evaluated(prob, temp, s, k, count, pick, accept)
    ensures forall j :: 0 <= j < |seen| ==> prob.cost(seen[j]) <= r.bestCost
  {
    r := s;
    seen := [];
    var ii := 0;
    while ii < count
      invariant 0 <= ii <= count
      invariant r == Pass(prob, temp, s, k, ii, pick, accept)
      invariant seen == Evaluated(prob, temp, s, k, ii, pick, accept)
    {
      ghost var neighbour;
      PassSnoc(prob, temp, s, k, ii, pick, accept);
      EvaluatedSnoc(prob, temp, s, k, ii, pick, accept);
      r, neighbour := InnerStep(prob, temp, r, k + ii, pick, accept);
      seen := seen + [neighbour];
      ii := ii + 1;
    }
    EvaluatedBound(prob, temp, s, k, count, pick, accept);
  }

  /** One iteration of `solve`'s main loop: a pass of `inner` steps at the
      current temperature, one `cool()`, and the history entry. */
  method MainStep(prob: Problem, c0: Cooling.Schedule, s0: Search, inner: nat, pick: nat -> nat,
                  accept: (nat, int, real) -> bool, out: Outcome, cooling: Cooling.Schedule)
    returns (next: Outcome, cooled: Cooling.Schedule, ghost passSeen: seq<State>)
    requires out == Trace(prob, c0, s0, inner, pick, accept, |out.history|)
    requires cooling == Cooling.CoolN(c0, |out.history|)
    ensures next == Trace(prob, c0, s0, inner, pick, accept, |out.history| + 1)
    ensures cooled == Cooling.CoolN(c0, |out.history| + 1)
    ensures next.draws == out.draws + inner && next.search.bestCost >= out.search.bestCost
    ensures TraceSeen(prob, c0, s0, inner, pick, accept, |out.history| + 1)
            == TraceSeen(prob, c0, s0, inner, pick, accept, |out.history|) + passSeen
  {
    TraceNext(prob, c0, s0, inner, pick, accept, |out.history|);
    var search;
    search, passSeen := InnerLoop(prob, Cooling.Temperature(cooling), out.search, out.draws, inner, pick, accept);
    cooled := Cooling.Cool(cooling);
    next := Outcome(search, out.history + [prob.cost(search.state)], out.draws + inner);
  }

  /** `solve`: the main loop, one pass of `innerLoops` steps and one `cool()`
      per iteration while the schedule is active. Returns the outcome and the
      cooled schedule; the ghost `seen` lists every neighbour evaluated. */
  method Solve(sv: Solver, pick: nat -> nat, accept: (nat, int, real) -> bool)
    returns (out: Outcome, cooled: Cooling.Schedule, ghost seen: seq<State>)
    requires Valid(sv)
    ensures out == Trace(sv.problem, sv.cooling, Start(sv.problem, sv.start), sv.innerLoops,
                         pick, accept, |out.history|)
    ensures cooled == Cooling.CoolN(sv.cooling, |out.history|) && !Cooling.IsActive(cooled)
    ensures forall j :: 0 <= j < |out.history| ==> Cooling.IsActive(Cooling.CoolN(sv.cooling, j))
    ensures Tracks(sv.problem, out.search)
    ensures out.search.bestCost >= sv.problem.cost(sv.start)
    ensures !Cooling.IsActive(sv.cooling) ==> |out.history| == 0
    ensures seen == TraceSeen(sv.problem, sv.cooling, Start(sv.problem, sv.start), sv.innerLoops,
                              pick, accept, |out.history|)
    ensures |seen| == out.draws
    ensures forall j :: 0 <= j < |seen| ==> sv.problem.cost(seen[j]) <= out.search.bestCost
  {
    var prob := sv.problem;
    var c0 := sv.cooling;
    var s0 := Start(prob, sv.start);
    out := Outcome(s0, [], 0);
    cooled := c0;
    seen := [];
    ghost var bound: nat := 0;
    if Cooling.Converges(c0) {
      bound := Cooling.InactiveFrom(c0);
    }
    while Cooling.IsActive(cooled)
      invariant out == Trace(prob, c0, s0, sv.innerLoops, pick, accept, |out.history|)
      invariant Cooling.Converges(c0) || out.history == []
      invariant Cooling.Converges(c0) ==>
                  forall n {:trigger Cooling.IsActive(Cooling.CoolN(c0, n))} :: n >= bound ==> !Cooling.IsActive(Cooling.CoolN(c0, n))
      invariant |out.history| <= bound
      invariant cooled == Cooling.CoolN(c0, |out.history|)
      invariant Cooling.ActiveFor(c0, |out.history|)
      invariant seen == TraceSeen(prob, c0, s0, sv.innerLoops, pick, accept, |out.history|)
      decreases bound - |out.history|
    {
      ghost var passSeen;
      out, cooled, passSeen := MainStep(prob, c0, s0, sv.innerLoops, pick, accept, out, cooled);
      seen := seen + passSeen;
    }
    Cooling.ActiveForAll(c0, |out.history|);
    TraceSeenBound(prob, c0, s0, sv.innerLoops, pick, accept, |out.history|);
  }

  /** A candidate temperature of the calibration pass: jj * jj + 1. */
  function Candidate(jj: nat): (t: real)
    ensures t >= 1.0
  {
    (jj * jj + 1) as real
  }

  /** t is one of the candidates tried in a round of the calibration pass. */
  predicate IsCandidate(t: real, iterations: nat) {
    exists jj :: 0 <= jj < iterations && t == Candidate(jj)
  }

  /** The very first comparison of the calibration pass succeeds: the one at
      draw 0, at the first candidate temperature, between the initial state
      and its first neighbour. */
  predicate FirstImproves(prob: Problem, pick: nat -> nat, improves: (nat, int, real) -> bool) {
    improves(0, prob.cost(prob.initial) - prob.cost(prob.neighbour(prob.initial, pick(0))), Candidate(0))
  }

  /** The first draw of iteration jj of a calibration round: each iteration
      makes `inner` draws for its comparisons and one more for the state it
      moves to at its end. */
  function IterationStart(inner: nat, jj: nat): nat
    decreases jj
  {
    if jj == 0 then 0 else IterationStart(inner, jj - 1) + inner + 1
  }

  /** The draw behind inner step ii of iteration jj of a calibration round. */
  function RoundDraw(inner: nat, jj: nat, ii: nat): nat {
    IterationStart(inner, jj) + ii
  }

  /** The state the first calibration round examines in iteration jj while no
      comparison has yet succeeded: the initial state, moved to one of its
      neighbours at the end of every iteration. */
  function Drift(prob: Problem, pick: nat -> nat, inner: nat, jj: nat): (s: State)
    ensures jj == 0 ==> s == prob.initial
    decreases jj
  {
    if jj == 0 then prob.initial
    else
      var before := Drift(prob, pick, inner, jj - 1);
      prob.neighbour(before, pick(RoundDraw(inner, jj - 1, inner)))
  }

  /** The cost difference the first calibration round weighs at inner step ii
      of iteration jj while no comparison has yet succeeded. */
  function CalibrationDelta(prob: Problem, pick: nat -> nat, inner: nat, jj: nat, ii: nat): int {
    var s := Drift(prob, pick, inner, jj);
    prob.cost(s) - prob.cost(prob.neighbour(s, pick(RoundDraw(inner, jj, ii))))
  }

  /** The comparison at inner step ii of iteration jj of the first round
      succeeds, provided none before it did. */
  predicate ComparisonAt(prob: Problem, pick: nat -> nat, improves: (nat, int, real) -> bool,
                         inner: nat, jj: nat, ii: nat) {
    improves(RoundDraw(inner, jj, ii), CalibrationDelta(prob, pick, inner, jj, ii), Candidate(jj))
  }

  /** No comparison of the first round before inner step ii of iteration jj
      succeeds. */
  predicate NoneBefore(prob: Problem, pick: nat -> nat, improves: (nat, int, real) -> bool,
                       inner: nat, jj: nat, ii: nat) {
    (forall a: nat, b: nat :: a < jj && b < inner ==> !ComparisonAt(prob, pick, improves, inner, a, b)) &&
    (forall b: nat :: b < ii ==> !ComparisonAt(prob, pick, improves, inner, jj, b))
  }

  /** Some comparison of the first calibration round succeeds: the first of
      them, in the order the round makes them, then does. */
  predicate RoundImproves(prob: Problem, pick: nat -> nat, improves: (nat, int, real) -> bool,
                          inner: nat, iterations: nat) {
    exists jj: nat, ii: nat :: jj < iterations && ii < inner &&
      ComparisonAt(prob, pick, improves, inner, jj, ii)
  }

  /** The very first comparison is the first round's at iteration 0, step 0. */
  lemma FirstImprovesRound(prob: Problem, pick: nat -> nat, improves: (nat, int, real) -> bool,
                           inner: nat, iterations: nat)
    requires inner > 0 && iterations > 0
    ensures FirstImproves(prob, pick, improves) <==> ComparisonAt(prob, pick, improves, inner, 0, 0)
    ensures FirstImproves(prob, pick, improves) ==> RoundImproves(prob, pick, improves, inner, iterations)
  {
    assert RoundDraw(inner, 0, 0) == 0;
  }

  /** Finishing iteration jj with no success is reaching iteration jj + 1
      with no success. */
  lemma NoneBeforeNext(prob: Problem, pick: nat -> nat, improves: (nat, int, real) -> bool,
                       inner: nat, jj: nat)
    requires NoneBefore(prob, pick, improves, inner, jj, inner)
    ensures NoneBefore(prob, pick, improves, inner, jj + 1, 0)
  {
  }

  /** One iteration of the calibration's round, at candidate temperature
      jj * jj + 1: `inner` comparisons of the current state with a neighbour,
      each moving to the neighbour and choosing the temperature when it
      succeeds. While no comparison of the first round has succeeded, the
      state is the round's drifting state and the draws follow the round's
      order. */
  method CalibrationIteration(prob: Problem, inner: nat, iterations: nat, pick: nat -> nat,
                              improves: (nat, int, real) -> bool, jj: nat, state0: State,
                              bestTemp0: real, draw0: nat, ghost first: bool)
    returns (state: State, bestTemp: real, draw: nat)
    requires jj < iterations
    requires bestTemp0 == 0.0 || (bestTemp0 >= 1.0 && IsCandidate(bestTemp0, iterations))
    requires first && bestTemp0 == 0.0 ==>
               draw0 == RoundDraw(inner, jj, 0) && state0 == Drift(prob, pick, inner, jj) &&
               NoneBefore(prob, pick, improves, inner, jj, 0)
    ensures bestTemp == 0.0 || (bestTemp >= 1.0 && IsCandidate(bestTemp, iterations))
    ensures bestTemp == bestTemp0 || bestTemp == Candidate(jj)
    ensures bestTemp0 >= 1.0 ==> bestTemp >= 1.0
    ensures inner == 0 ==> bestTemp == bestTemp0
    ensures bestTemp == 0.0 ==> bestTemp0 == 0.0
    ensures first && bestTemp == 0.0 ==>
              draw == RoundDraw(inner, jj, inner) && state == Drift(prob, pick, inner, jj) &&
              NoneBefore(prob, pick, improves, inner, jj, inner)
  {
    state, bestTemp, draw := state0, bestTemp0, draw0;
    var curTemp := Candidate(jj);
    assert IsCandidate(curTemp, iterations);
    var ii := 0;
    while ii < inner
      invariant 0 <= ii <= inner
      invariant bestTemp == 0.0 || (bestTemp >= 1.0 && IsCandidate(bestTemp, iterations))
      invariant bestTemp == bestTemp0 || bestTemp == curTemp
      invariant bestTemp0 >= 1.0 ==> bestTemp >= 1.0
      invariant ii == 0 ==> bestTemp == bestTemp0
      invariant bestTemp == 0.0 ==> bestTemp0 == 0.0
      invariant first && bestTemp == 0.0 ==>
                  draw == RoundDraw(inner, jj, ii) && state == Drift(prob, pick, inner, jj) &&
                  NoneBefore(prob, pick, improves, inner, jj, ii)
    {
      var neighbour := prob.neighbour(state, pick(draw));
      var stateCost := prob.cost(state);
      var neighbourCost := prob.cost(neighbour);
      var deltaCost := stateCost - neighbourCost;
      if improves(draw, deltaCost, curTemp) {
        bestTemp := curTemp;
        state := neighbour;
      }
      draw := draw + 1;
      ii := ii + 1;
    }
  }

  /** No comparison of the whole first round succeeding rules out that some
      comparison of it succeeds. */
  lemma NoneBeforeEnd(prob: Problem, pick: nat -> nat, improves: (nat, int, real) -> bool,
                      inner: nat, iterations: nat)
    requires NoneBefore(prob, pick, improves, inner, iterations, 0)
    ensures !RoundImproves(prob, pick, improves, inner, iterations)
  {
  }

  /** One round of the calibration: the iterations at the candidate
      temperatures jj * jj + 1, each ending with a move to a neighbour of the
      state reached. In the first round, a temperature is chosen when some
      comparison of the round succeeds. */
  method CalibrationRound(prob: Problem, inner: nat, iterations: nat, pick: nat -> nat,
                          improves: (nat, int, real) -> bool, bestStart0: State, state0: State,
                          draw0: nat, ghost first: bool)
    returns (bestStart: State, state: State, bestTemp: real, draw: nat)
    requires first ==> draw0 == 0 && state0 == prob.initial
    ensures bestTemp == 0.0 || (bestTemp >= 1.0 && IsCandidate(bestTemp, iterations))
    ensures (iterations == 0 || inner == 0) ==> bestTemp == 0.0
    ensures first && RoundImproves(prob, pick, improves, inner, iterations) ==> bestTemp >= 1.0
  {
    bestStart, state, bestTemp, draw := bestStart0, state0, 0.0, draw0;
    var jj := 0;
    while jj < iterations
      invariant 0 <= jj <= iterations
      invariant bestTemp == 0.0 || (bestTemp >= 1.0 && IsCandidate(bestTemp, iterations))
      invariant (iterations == 0 || inner == 0) ==> bestTemp == 0.0
      invariant first && bestTemp == 0.0 ==>
                  draw == RoundDraw(inner, jj, 0) && state == Drift(prob, pick, inner, jj) &&
                  NoneBefore(prob, pick, improves, inner, jj, 0)
    {
      state, bestTemp, draw := CalibrationIteration(prob, inner, iterations, pick, improves, jj,
                                                    state, bestTemp, draw, first);
      bestStart := state;
      state := prob.neighbour(state, pick(draw));
      draw := draw + 1;
      if first && bestTemp == 0.0 {
        NoneBeforeNext(prob, pick, improves, inner, jj);
      }
      jj := jj + 1;
    }
    if first && bestTemp == 0.0 {
      NoneBeforeEnd(prob, pick, improves, inner, iterations);
    }
  }

  /** `calculateInitialTemperature`, with `fuel` bounding its outer rounds:
      None when the rounds run out before a temperature is chosen. */
  method CalibrateTemperature(c: Cooling.Schedule, prob: Problem, inner: nat, iterations: nat,
                              pick: nat -> nat, improves: (nat, int, real) -> bool, fuel: nat)
    returns (r: Option<Calibration>)
    ensures r.Some? ==> var t := r.value.cooling.startTemp;
                        t >= 1.0 && IsCandidate(t, iterations) &&
                        Cooling.Temperature(r.value.cooling) == t &&
                        r.value.cooling.minTemp == t / 10.0 &&
                        r.value.cooling.rule == c.rule && r.value.cooling.alpha == c.alpha
    ensures r.Some? ==> Cooling.IsActive(r.value.cooling)
    ensures (iterations == 0 || inner == 0) ==> r.None?
    ensures fuel > 0 && iterations > 0 && inner > 0 && FirstImproves(prob, pick, improves) ==> r.Some?
    ensures fuel > 0 && RoundImproves(prob, pick, improves, inner, iterations) ==> r.Some?
  {
    if inner > 0 && iterations > 0 {
      FirstImprovesRound(prob, pick, improves, inner, iterations);
    }
    var state := prob.initial;
    var bestStart := state;
    var bestTemp: real := 0.0;
    var draw: nat := 0;
    var rounds: nat := 0;
    while bestTemp < 1.0
      invariant bestTemp == 0.0 || (bestTemp >= 1.0 && IsCandidate(bestTemp, iterations))
      invariant (iterations == 0 || inner == 0) ==> bestTemp == 0.0
      invariant rounds <= fuel
      invariant rounds == 0 ==> draw == 0 && state == prob.initial
      invariant rounds > 0 && RoundImproves(prob, pick, improves, inner, iterations) ==> bestTemp >= 1.0
      decreases fuel - rounds
    {
      if rounds == fuel {
        return None;
      }
      rounds := rounds + 1;
      bestStart, state, bestTemp, draw := CalibrationRound(prob, inner, iterations, pick, improves,
                                                          bestStart, state, draw, rounds == 1);
    }
    var tuned := Cooling.SetMinTemperature(Cooling.SetStartTemperature(c, bestTemp), bestTemp / 10.0);
    r := Some(Calibration(tuned, bestStart));
  }

  /** The object with the constructor's defaults and no calibration. */
  function Construct(c: Cooling.Schedule, prob: Problem, bit: nat -> bool): (sv: Solver)
    ensures sv.innerLoops == DefaultInnerLoops && sv.randomIterations == DefaultRandomIterations
    ensures sv.cooling == c && sv.problem == prob && sv.start == prob.randomInitial(bit)
  {
    Solver(c, prob, DefaultInnerLoops, DefaultRandomIterations, prob.randomInitial(bit))
  }

  /** The `SimulatedAnnealing` constructor. The inner-loop count is the one
      passed in on both branches: the assignment after calibration writes the
      constructor's parameter, which shadows the member. */
  method NewSolver(c: Cooling.Schedule, prob: Problem, setAutomatically: bool, innerLoops: nat,
                   iterations: nat, bit: nat -> bool, pick: nat -> nat,
                   improves: (nat, int, real) -> bool, fuel: nat)
    returns (r: Option<Solver>)
    ensures r.Some? ==> r.value.problem == prob && r.value.innerLoops == innerLoops &&
                        r.value.randomIterations == iterations
    ensures !setAutomatically ==>
              r.Some? && r.value.cooling == c && r.value.start == prob.randomInitial(bit)
    ensures setAutomatically && r.Some? ==>
              r.value.cooling.startTemp >= 1.0 && Cooling.IsActive(r.value.cooling) &&
              r.value.cooling.minTemp == r.value.cooling.startTemp / 10.0 &&
              r.value.cooling.rule == c.rule && r.value.cooling.alpha == c.alpha
    ensures setAutomatically && (iterations == 0 || innerLoops == 0) ==> r.None?
    ensures (setAutomatically && fuel > 0 && iterations > 0 && innerLoops > 0 &&
             FirstImproves(prob, pick, improves)) ==> r.Some?
    ensures (setAutomatically && fuel > 0 &&
             RoundImproves(prob, pick, improves, innerLoops, iterations)) ==> r.Some?
  {
    if setAutomatically {
      var cal := CalibrateTemperature(c, prob, innerLoops, iterations, pick, improves, fuel);
      if cal.None? {
        return None;
      }
      r := Some(Solver(cal.value.cooling, prob, innerLoops, iterations, cal.value.start));
    } else {
      r := Some(Solver(c, prob, innerLoops, iterations, prob.randomInitial(bit)));
    }
  }

  /** A calibrated schedule whose alpha lets it converge can be solved: its
      floor is a tenth of a start of at least 1, hence positive. */
  lemma CalibratedConverges(c: Cooling.Schedule)
    requires c.startTemp >= 1.0 && c.minTemp == c.startTemp / 10.0
    requires c.rule == Cooling.Linear ==> c.alpha > 0.0
    requires c.rule == Cooling.Geometric ==> 0.0 < c.alpha < 1.0
    ensures Cooling.Converges(c)
  {
  }

  /** The program of main.cpp: a geometric schedule (70, 0.01, 0.995) on the
      example knapsack, calibrated automatically with the default loop counts,
      then solved. The calibration and the solve draw from their own oracles.
      None when the calibration runs out of rounds. The calibrated floor is
      positive, so `solve` ends; the calibrated schedule is active, so `solve`
      makes at least one pass. */
  method MainProgram(bit: nat -> bool, calibrationPick: nat -> nat, improves: (nat, int, real) -> bool,
                     fuel: nat, pick: nat -> nat, accept: (nat, int, real) -> bool)
    returns (r: Option<Outcome>)
    ensures r.Some? ==> |r.value.history| >= 1
    ensures r.Some? ==> Tracks(KnapsackProblem(MainInstance()), r.value.search)
    ensures (fuel > 0 && RoundImproves(KnapsackProblem(MainInstance()), calibrationPick, improves,
                                       DefaultInnerLoops, DefaultRandomIterations)) ==> r.Some?
  {
    var prob := KnapsackProblem(MainInstance());
    var c := Cooling.Make(Cooling.Geometric, 70.0, 0.01, 0.995);
    var sv := NewSolver(c, prob, true, DefaultInnerLoops, DefaultRandomIterations, bit, calibrationPick,
                        improves, fuel);
    if sv.None? {
      return None;
    }
    CalibratedConverges(sv.value.cooling);
    var out, cooled, seen := Solve(sv.value, pick, accept);
    r := Some(out);
  }

  /** On the instance of main.cpp every item fits on its own, so each
      comparison of the first iteration weighs the empty knapsack against a
      one-item knapsack that costs more: every delta there is negative, the
      drawn item's value below 0. */
  lemma MainFirstIterationDeltas(pick: nat -> nat, ii: nat)
    ensures var p := MainInstance();
            var raw := pick(RoundDraw(DefaultInnerLoops, 0, ii));
            CalibrationDelta(KnapsackProblem(p), pick, DefaultInnerLoops, 0, ii)
            == -(p.costs[RandomIndex(|p.weights|, raw)] as int) < 0
  {
    var p := MainInstance();
    var q := KnapsackProblem(p);
    var s := InitialState(p);
    var raw := pick(RoundDraw(DefaultInnerLoops, 0, ii));
    var i := RandomIndex(|s|, raw);
    var one := Neighbour(p, s, raw);
    TotalNone(p.weights, s);
    TotalNone(p.costs, s);
    NeighbourTotals(p, s, raw);
    assert p.weights[i] <= p.maxWeight && p.costs[i] > 0;
    assert Weight(p, one) == p.weights[i] && Value(p, one) == p.costs[i];
    assert q.cost(one) == p.costs[i] && q.cost(s) == 0;
    assert Drift(q, pick, DefaultInnerLoops, 0) == s && q.neighbour(s, raw) == one;
  }

  /** On the instance of main.cpp, the first comparison of the second
      iteration weighs the one-item knapsack the first iteration ended on
      against the empty one when its draw picks that item again: the delta is
      then positive, the item's value. */
  lemma MainSecondIterationDelta(pick: nat -> nat)
    requires var n := |MainInstance().weights|;
             RandomIndex(n, pick(RoundDraw(DefaultInnerLoops, 1, 0)))
             == RandomIndex(n, pick(RoundDraw(DefaultInnerLoops, 0, DefaultInnerLoops)))
    ensures var p := MainInstance();
            var raw := pick(RoundDraw(DefaultInnerLoops, 0, DefaultInnerLoops));
            CalibrationDelta(KnapsackProblem(p), pick, DefaultInnerLoops, 1, 0)
            == p.costs[RandomIndex(|p.weights|, raw)] > 0
  {
    var p := MainInstance();
    var q := KnapsackProblem(p);
    var s := InitialState(p);
    var raw := pick(RoundDraw(DefaultInnerLoops, 0, DefaultInnerLoops));
    var i := RandomIndex(|s|, raw);
    var one := Neighbour(p, s, raw);
    assert Drift(q, pick, DefaultInnerLoops, 1) == one;
    TotalNone(p.weights, s);
    TotalNone(p.costs, s);
    NeighbourTotals(p, s, raw);
    NeighbourUndo(p, s, raw);
    assert p.weights[i] <= p.maxWeight && p.costs[i] > 0;
    assert Weight(p, one) == p.weights[i] && Value(p, one) == p.costs[i];
    assert q.cost(one) == p.costs[i] && q.cost(s) == 0;
    assert Neighbour(p, one, pick(RoundDraw(DefaultInnerLoops, 1, 0))) == s;
    assert q.neighbour(one, pick(RoundDraw(DefaultInnerLoops, 1, 0))) == s;
  }

  /** The knapsack of problem.hpp behind the `Problem` interface. A draw on a
      state of the wrong length, which the source never makes, leaves it as it
      is. */
  function KnapsackProblem(p: Instance): (q: Problem)
    requires WellFormed(p)
    ensures q.initial == InitialState(p)
    ensures forall bit :: q.randomInitial(bit) == RandomInitialState(p, bit)
    ensures forall s, raw :: IsStateOf(p, s) && |s| > 0 ==> q.neighbour(s, raw) == Neighbour(p, s, raw)
    ensures forall s, raw :: IsStateOf(p, s) ==> IsStateOf(p, q.neighbour(s, raw))
    ensures forall s :: IsStateOf(p, s) ==> q.cost(s) == Cost(p, s).cost
  {
    Problem(InitialState(p),
            bit => RandomInitialState(p, bit),
            (s: State, raw: nat) => if IsStateOf(p, s) && |s| > 0 then Neighbour(p, s, raw) else s,
            s => if IsStateOf(p, s) then Cost(p, s).cost else 0)
  }

  /** Both states of a search belong to the instance. */
  predicate Within(p: Instance, s: Search) {
    IsStateOf(p, s.state) && IsStateOf(p, s.best)
  }

  /** Knapsack steps stay within the instance. */
  lemma {:induction false} KnapsackPass(p: Instance, temp: real, s: Search, k: nat, count: nat,
                                        pick: nat -> nat, accept: (nat, int, real) -> bool)
    requires WellFormed(p) && Within(p, s)
    ensures Within(p, Pass(KnapsackProblem(p), temp, s, k, count, pick, accept))
    decreases count
  {
    if count > 0 {
      var q := KnapsackProblem(p);
      var next := Step(q, temp, s, k, pick, accept);
      assert Within(p, next);
      KnapsackPass(p, temp, next, k + 1, count - 1, pick, accept);
    }
  }

  /** Annealing a knapsack from one of its states keeps every state within the
      instance, so the best cost is `getStateCost` of the best state, and no
      worse than the starting state's. */
  lemma {:induction false} KnapsackTrace(p: Instance, c: Cooling.Schedule, start: State, inner: nat,
                                         pick: nat -> nat, accept: (nat, int, real) -> bool, n: nat)
    requires WellFormed(p) && IsStateOf(p, start)
    ensures var q := KnapsackProblem(p);
            var r := Trace(q, c, Start(q, start), inner, pick, accept, n).search;
            Within(p, r) && r.bestCost == Cost(p, r.best).cost &&
            r.bestCost >= Cost(p, start).cost
    decreases n
  {
    var q := KnapsackProblem(p);
    if n > 0 {
      KnapsackTrace(p, c, start, inner, pick, accept, n - 1);
      var prev := Trace(q, c, Start(q, start), inner, pick, accept, n - 1);
      var temp := Cooling.Temperature(Cooling.CoolN(c, n - 1));
      KnapsackPass(p, temp, prev.search, prev.draws, inner, pick, accept);
    }
  }
}

=== FILE: cooling.dfy ===
/** Cooling schedules (cooling.hpp).

A schedule is the four numbers of class `Cooling` — start, minimum and current
temperature and the decay factor alpha — tagged with the subclass that decides
how `cool()` moves the current temperature. The source stores doubles; here
they are exact reals, so there is no rounding and no underflow.
 */
module Cooling {

  import RealArith

  /** The two concrete subclasses: `LinearCooling` and `GeometricCooling`. */
  datatype Rule = Linear | Geometric

  datatype Schedule = Schedule(rule: Rule, startTemp: real, minTemp: real, curTemp: real, alpha: real)

  /** Everything but the current temperature agrees. */
  predicate SameSettings(c: Schedule, d: Schedule) {
    c.rule == d.rule && c.startTemp == d.startTemp && c.minTemp == d.minTemp && c.alpha == d.alpha
  }

  /** The default constructor `Cooling()`: (100, 10, 100, 0.995). */
  function Default(rule: Rule): (c: Schedule)
    ensures c.rule == rule && c.alpha == 0.995
    ensures c.startTemp == 100.0 && c.minTemp == 10.0 && Temperature(c) == 100.0
    ensures IsActive(c) && Reset(c) == c
  {
    Schedule(rule, 100.0, 10.0, 100.0, 0.995)
  }

  /** The constructor `Cooling(startTemp, minTemp, alpha)`: the current
      temperature starts at the start temperature. */
  function Make(rule: Rule, startTemp: real, minTemp: real, alpha: real): (c: Schedule)
    ensures c.rule == rule && c.startTemp == startTemp && c.minTemp == minTemp && c.alpha == alpha
    ensures Temperature(c) == startTemp
    ensures Reset(c) == c
    ensures IsActive(c) <==> startTemp > minTemp
  {
    Schedule(rule, startTemp, minTemp, startTemp, alpha)
  }

  /** `setStartTemperature`: moves the start and the current temperature. */
  function SetStartTemperature(c: Schedule, t: real): (r: Schedule)
    ensures r.startTemp == t && Temperature(r) == t
    ensures r.rule == c.rule && r.minTemp == c.minTemp && r.alpha == c.alpha
    ensures Reset(r) == r
  {
    c.(startTemp := t, curTemp := t)
  }

  /** `setMinTemperature`: moves the floor only. */
  function SetMinTemperature(c: Schedule, t: real): (r: Schedule)
    ensures r.minTemp == t
    ensures r.rule == c.rule && r.startTemp == c.startTemp && r.alpha == c.alpha
    ensures Temperature(r) == Temperature(c)
    ensures IsActive(r) <==> Temperature(c) > t
  {
    c.(minTemp := t)
  }

  /** `isActive`: annealing goes on while the temperature is above the floor. */
  predicate IsActive(c: Schedule) {
    c.curTemp > c.minTemp
  }

  /** `getTemperature`: a value, so it cannot change the schedule. */
  function Temperature(c: Schedule): real {
    c.curTemp
  }

  /** `reset`: back to the start temperature. */
  function Reset(c: Schedule): (r: Schedule)
    ensures Temperature(r) == c.startTemp
    ensures SameSettings(r, c)
    ensures IsActive(r) <==> c.startTemp > c.minTemp
  {
    c.(curTemp := c.startTemp)
  }

  /** `cool()` of either subclass: subtract alpha, or multiply by alpha. */
  function Cool(c: Schedule): (r: Schedule)
    ensures SameSettings(r, c)
    ensures c.rule == Linear ==> Temperature(r) == Temperature(c) - c.alpha
    ensures c.rule == Geometric ==> Temperature(r) == Temperature(c) * c.alpha
  {
    match c.rule
    case Linear => c.(curTemp := c.curTemp - c.alpha)
    case Geometric => c.(curTemp := c.curTemp * c.alpha)
  }

  /** Linear cooling with a positive alpha strictly lowers the temperature. */
  lemma LinearCoolDecreases(c: Schedule)
    requires c.rule == Linear && c.alpha > 0.0
    ensures Temperature(Cool(c)) < Temperature(c)
  {
  }

  /** Geometric cooling with 0 < alpha < 1 strictly lowers a positive
      temperature and keeps it positive. */
  lemma GeometricCoolDecreases(c: Schedule)
    requires c.rule == Geometric && 0.0 < c.alpha < 1.0 && Temperature(c) > 0.0
    ensures 0.0 < Temperature(Cool(c)) < Temperature(c)
  {
    RealArith.Shrink(Temperature(c), c.alpha, Temperature(Cool(c)));
  }

  /** A converging schedule never leaves the inactive state by cooling. */
  lemma CoolKeepsInactive(c: Schedule)
    requires Converges(c) && !IsActive(c)
    ensures !IsActive(Cool(c))
  {
    if c.rule == Geometric {
      RealArith.ShrinkBelow(Temperature(c), c.alpha, c.minTemp, Temperature(Cool(c)));
    }
  }

  /** `cool()` called n times in a row. */
  function CoolN(c: Schedule, n: nat): (r: Schedule)
    ensures SameSettings(r, c)
    decreases n
  {
    if n == 0 then c else Cool(CoolN(c, n - 1))
  }

  /** The schedules the solver's main loop leaves: a linear one that really
      decreases, and a geometric one that shrinks towards a positive floor. */
  predicate Converges(c: Schedule) {
    match c.rule
    case Linear => c.alpha > 0.0
    case Geometric => 0.0 < c.alpha < 1.0 && c.minTemp > 0.0
  }

  /** A number of `cool()` calls after which a converging schedule is inactive. */
  function Bound(c: Schedule): nat {
    if !IsActive(c) || !Converges(c) then 0
    else match c.rule
      case Linear => RealArith.PositiveFloor((c.curTemp - c.minTemp) / c.alpha) + 1
      case Geometric => RealArith.PositiveFloor((c.curTemp / c.minTemp) / (1.0 - c.alpha)) + 1
  }

  /** Cooling n more times after one call is cooling n + 1 times. */
  lemma {:induction false} CoolNShift(c: Schedule, n: nat)
    ensures CoolN(Cool(c), n) == CoolN(c, n + 1)
    decreases n
  {
    if n > 0 {
      CoolNShift(c, n - 1);
    }
  }

  /** `reset` undoes any number of `cool()` calls. */
  lemma ResetAfterCooling(c: Schedule, n: nat)
    ensures Reset(CoolN(c, n)) == Reset(c)
    ensures Temperature(Reset(CoolN(c, n))) == c.startTemp
  {
  }

  /** `reset` is idempotent. */
  lemma ResetIdempotent(c: Schedule)
    ensures Reset(Reset(c)) == Reset(c)
  {
  }

  /** Linear cooling n times lowers the temperature by n * alpha. */
  lemma {:induction false} LinearTemperature(c: Schedule, n: nat)
    requires c.rule == Linear
    ensures Temperature(CoolN(c, n)) == Temperature(c) - (n as real) * c.alpha
    decreases n
  {
    if n > 0 {
      LinearTemperature(c, n - 1);
    }
  }

  /** Once a converging schedule is inactive, it stays inactive. */
  lemma {:induction false} StaysInactive(c: Schedule, n: nat)
    requires Converges(c) && !IsActive(c)
    ensures !IsActive(CoolN(c, n))
    decreases n
  {
    if n > 0 {
      StaysInactive(c, n - 1);
      CoolKeepsInactive(CoolN(c, n - 1));
    }
  }

  /** The n-th geometric `cool()` multiplies by the schedule's alpha. */
  lemma GeometricStep(c: Schedule, n: nat)
    requires c.rule == Geometric && n >= 1
    ensures Temperature(CoolN(c, n)) == Temperature(CoolN(c, n - 1)) * c.alpha
  {
  }

  /** Geometric cooling n times scales the temperature by alpha n times. */
  lemma {:induction false} GeometricTemperature(c: Schedule, n: nat)
    requires c.rule == Geometric
    ensures Temperature(CoolN(c, n)) == RealArith.ScaleN(Temperature(c), c.alpha, n)
    decreases n
  {
    if n > 0 {
      GeometricTemperature(c, n - 1);
      GeometricStep(c, n);
    }
  }

  /** Linear cooling with a positive alpha is inactive after Bound(c) steps. */
  lemma LinearEventuallyInactive(c: Schedule, n: nat)
    requires c.rule == Linear && Converges(c) && n >= Bound(c)
    ensures !IsActive(CoolN(c, n))
  {
    LinearTemperature(c, n);
    if IsActive(c) {
      RealArith.DivPositive(c.curTemp - c.minTemp, c.alpha);
      RealArith.LinearBoundArith(c.curTemp, c.minTemp, c.alpha, n as real);
    } else {
      RealArith.MulNonNegative(n as real, c.alpha);
    }
  }

  /** Past the bound, an active geometric schedule is below its floor. */
  lemma GeometricBelowFloor(c: Schedule, n: nat)
    requires c.rule == Geometric && Converges(c) && IsActive(c) && n >= Bound(c)
    ensures Temperature(CoolN(c, n)) < c.minTemp
  {
    GeometricTemperature(c, n);
    RealArith.ScaleNDecays(Temperature(c), c.alpha, n);
    RealArith.GeometricPastBound(Temperature(c), c.minTemp, c.alpha, Bound(c), n, RealArith.ScaleN(Temperature(c), c.alpha, n));
  }

  /** Geometric cooling towards a positive floor is inactive after Bound(c) steps. */
  lemma GeometricEventuallyInactive(c: Schedule, n: nat)
    requires c.rule == Geometric && Converges(c) && n >= Bound(c)
    ensures !IsActive(CoolN(c, n))
  {
    if IsActive(c) {
      GeometricBelowFloor(c, n);
    } else {
      StaysInactive(c, n);
    }
  }

  /** Repeated cooling of a converging schedule makes it inactive, and it is
      inactive at every count from Bound(c) on. */
  lemma EventuallyInactive(c: Schedule, n: nat)
    requires Converges(c) && n >= Bound(c)
    ensures !IsActive(CoolN(c, n))
  {
    match c.rule
    case Linear => LinearEventuallyInactive(c, n);
    case Geometric => GeometricEventuallyInactive(c, n);
  }

  /** A converging schedule has a count of `cool()` calls from which on it is
      inactive. */
  lemma InactiveFrom(c: Schedule) returns (b: nat)
    requires Converges(c)
    ensures forall n {:trigger IsActive(CoolN(c, n))} :: n >= b ==> !IsActive(CoolN(c, n))
  {
    b := Bound(c);
    forall n | n >= b
      ensures !IsActive(CoolN(c, n))
    {
      EventuallyInactive(c, n);
    }
  }

  /** The schedule is active before each of the first n `cool()` calls. */
  predicate ActiveFor(c: Schedule, n: nat)
    decreases n
  {
    n == 0 || (ActiveFor(c, n - 1) && IsActive(CoolN(c, n - 1)))
  }

  /** ActiveFor(c, n) says the schedule was active before each of the first n calls. */
  lemma {:induction false} ActiveForAll(c: Schedule, n: nat)
    requires ActiveFor(c, n)
    ensures forall j :: 0 <= j < n ==> IsActive(CoolN(c, j))
    decreases n
  {
    if n > 0 {
      ActiveForAll(c, n - 1);
    }
  }
}

=== FILE: knapsack.dfy ===
/** The reference problem of problem.hpp: a 0/1 knapsack.

A state is one boolean per item (selected or not). The cost of a state is the
total value of the selected items, minus a penalty of 1000 per unit of weight
over the capacity. Weights and costs are `size_t` in the source and summed in
a `double`; here they are `nat` summed exactly.
 */
module Knapsack {

  /** `Knapsack`'s data: item weights, item costs (values) and the capacity. */
  datatype Instance = Instance(weights: seq<nat>, costs: seq<nat>, maxWeight: nat)

  /** `KnapsackState`: whether each item is in the knapsack. */
  type State = seq<bool>

  /** The result of `getStateCost`: the penalised cost and whether the state
      respects the capacity. */
  datatype Score = Score(cost: int, feasible: bool)

  /** The source indexes `costs` with every index of `weights`. */
  predicate WellFormed(p: Instance) {
    |p.costs| == |p.weights|
  }

  /** A state built by this instance: one flag per item. */
  predicate IsStateOf(p: Instance, s: State) {
    |s| == |p.weights|
  }

  /** The sum of vals[i] over the selected positions i of s. */
  function Total(vals: seq<nat>, s: State): nat
    requires |s| <= |vals|
    decreases |s|
  {
    if |s| == 0 then 0
    else Total(vals, s[..|s| - 1]) + (if s[|s| - 1] then vals[|s| - 1] else 0)
  }

  /** Total selected weight. */
  function Weight(p: Instance, s: State): nat
    requires IsStateOf(p, s)
  {
    Total(p.weights, s)
  }

  /** Total selected value, before the penalty. */
  function Value(p: Instance, s: State): nat
    requires WellFormed(p) && IsStateOf(p, s)
  {
    Total(p.costs, s)
  }

  /** The penalising tail of `getStateCost`: subtract 1000 per unit of
      overweight, and report feasibility. */
  function Penalise(value: int, weight: nat, maxWeight: nat): (r: Score)
    ensures r.feasible <==> weight <= maxWeight
    ensures r.feasible ==> r.cost == value
    ensures !r.feasible ==> r.cost <= value - 1000
    ensures !r.feasible ==> r.cost == value - 1000 * (weight - maxWeight)
    ensures weight == maxWeight ==> r == Score(value, true)
    ensures weight == maxWeight + 1 ==> r == Score(value - 1000, false)
  {
    var over := weight - maxWeight;
    Score(value - 1000 * (if over > 0 then over else 0), weight <= maxWeight)
  }

  /** `getStateCost` as a function: the penalised value and feasibility. */
  function Cost(p: Instance, s: State): (r: Score)
    requires WellFormed(p) && IsStateOf(p, s)
    ensures r.feasible <==> Weight(p, s) <= p.maxWeight
    ensures r.feasible ==> r.cost == Value(p, s)
    ensures !r.feasible ==> r.cost < Value(p, s)
  {
    Penalise(Value(p, s), Weight(p, s), p.maxWeight)
  }

  /** `getStateCost` as the source computes it: one pass accumulating value
      and weight, then the penalty. */
  method StateCost(p: Instance, s: State) returns (r: Score)
    requires WellFormed(p) && IsStateOf(p, s)
    ensures r == Cost(p, s)
  {
    var cost: nat := 0;
    var weight: nat := 0;
    var ii := 0;
    while ii < |s|
      invariant 0 <= ii <= |s|
      invariant cost == Total(p.costs, s[..ii])
      invariant weight == Total(p.weights, s[..ii])
    {
      assert s[..ii + 1][..ii] == s[..ii];
      cost := cost + (if s[ii] then p.costs[ii] else 0);
      weight := weight + (if s[ii] then p.weights[ii] else 0);
      ii := ii + 1;
    }
    assert s[..|s|] == s;
    r := Penalise(cost, weight, p.maxWeight);
  }

  /** `getInstanceSize`: the number of items. */
  function InstanceSize(p: Instance): (n: nat)
    ensures IsStateOf(p, InitialState(p)) && n == |InitialState(p)|
  {
    |p.weights|
  }

  /** `getInitialState`: the empty knapsack. */
  function InitialState(p: Instance): (s: State)
    ensures IsStateOf(p, s)
    ensures forall i :: 0 <= i < |s| ==> !s[i]
  {
    seq(|p.weights|, i => false)
  }

  /** `getRandomInitialState`: each flag drawn independently; the draws are
      the oracle `bit`. */
  function RandomInitialState(p: Instance, bit: nat -> bool): (s: State)
    ensures IsStateOf(p, s)
    ensures forall i :: 0 <= i < |s| ==> s[i] == bit(i)
  {
    seq(|p.weights|, i requires 0 <= i => bit(i))
  }

  /** "Either remove or add item": the state with flag i negated. */
  function Flip(s: State, i: nat): (r: State)
    requires i < |s|
    ensures |r| == |s| && r[i] == !s[i]
    ensures forall j :: 0 <= j < |s| && j != i ==> r[j] == s[j]
  {
    s[i := !s[i]]
  }

  /** The index draw as the source writes it: `uniform_int_distribution(0,
      weights.size())` is inclusive at both ends, so it yields any value in
      [0, n]; `raw` selects which. */
  function RandomIndexAsWritten(n: nat, raw: nat): (i: nat)
    ensures i <= n
  {
    raw % (n + 1)
  }

  /** The index draw as intended: any value in [0, n) for a non-empty state. */
  function RandomIndex(n: nat, raw: nat): (i: nat)
    requires n > 0
    ensures i < n
  {
    raw % n
  }

  /** `getRandomNeighbourOfState` with the intended draw: one flag flipped,
      the input state itself untouched (it is a value). */
  function Neighbour(p: Instance, s: State, raw: nat): (r: State)
    requires IsStateOf(p, s) && |s| > 0
    ensures IsStateOf(p, r)
    ensures exists i :: 0 <= i < |s| && r[i] != s[i] &&
              (forall j :: 0 <= j < |s| && j != i ==> r[j] == s[j])
  {
    var i := RandomIndex(|s|, raw);
    var r := Flip(s, i);
    assert r[i] != s[i];
    r
  }

  /** Flipping the same flag twice gives the original state back. */
  lemma FlipTwice(s: State, i: nat)
    requires i < |s|
    ensures Flip(Flip(s, i), i) == s
  {
  }

  /** A neighbour move is undone by flipping the drawn index again. */
  lemma NeighbourUndo(p: Instance, s: State, raw: nat)
    requires IsStateOf(p, s) && |s| > 0
    ensures Flip(Neighbour(p, s, raw), RandomIndex(|s|, raw)) == s
  {
    FlipTwice(s, RandomIndex(|s|, raw));
  }

  /** The intended draw reaches every valid index. */
  lemma RandomIndexCovers(n: nat, i: nat)
    requires i < n
    ensures RandomIndex(n, i) == i
  {
  }

  /** The source's draw can yield n itself, which is not an index of a state
      of length n: the write at problem.hpp:106 is then out of range. */
  lemma RandomIndexAsWrittenOutOfRange(n: nat)
    ensures RandomIndexAsWritten(n, n) == n
    ensures !(RandomIndexAsWritten(n, n) < n)
  {
  }

  /** A prefix of all-unselected flags selects nothing. */
  lemma {:induction false} TotalNone(vals: seq<nat>, s: State)
    requires |s| <= |vals|
    requires forall i :: 0 <= i < |s| ==> !s[i]
    ensures Total(vals, s) == 0
    decreases |s|
  {
    if |s| > 0 {
      TotalNone(vals, s[..|s| - 1]);
    }
  }

  /** Flipping flag i moves the total by exactly vals[i], down when the item
      was selected and up when it was not. */
  lemma {:induction false} TotalFlip(vals: seq<nat>, s: State, i: nat)
    requires |s| <= |vals| && i < |s|
    ensures Total(vals, Flip(s, i)) ==
              if s[i] then Total(vals, s) - vals[i] else Total(vals, s) + vals[i]
    decreases |s|
  {
    var r := Flip(s, i);
    var last := |s| - 1;
    if i == last {
      assert r[..last] == s[..last];
    } else {
      assert r[..last] == Flip(s[..last], i);
      TotalFlip(vals, s[..last], i);
    }
  }

  /** The empty knapsack costs nothing and is feasible. */
  lemma InitialStateScore(p: Instance)
    requires WellFormed(p)
    ensures Cost(p, InitialState(p)) == Score(0, true)
  {
    TotalNone(p.weights, InitialState(p));
    TotalNone(p.costs, InitialState(p));
  }

  /** A neighbour's weight and value differ from the state's by the flipped
      item's weight and value. */
  lemma NeighbourTotals(p: Instance, s: State, raw: nat)
    requires WellFormed(p) && IsStateOf(p, s) && |s| > 0
    ensures var i := RandomIndex(|s|, raw);
            var r := Neighbour(p, s, raw);
            Weight(p, r) == (if s[i] then Weight(p, s) - p.weights[i] else Weight(p, s) + p.weights[i]) &&
            Value(p, r) == (if s[i] then Value(p, s) - p.costs[i] else Value(p, s) + p.costs[i])
  {
    var i := RandomIndex(|s|, raw);
    TotalFlip(p.weights, s, i);
    TotalFlip(p.costs, s, i);
  }

  /** The instance main.cpp solves. */
  function MainInstance(): (p: Instance)
    ensures WellFormed(p) && |p.weights| == 10
  {
    Instance([36, 1, 43, 113, 202, 10, 149, 209, 28, 65],
             [574, 253, 636, 1266, 2068, 334, 1588, 2126, 495, 831],
             522)
  }
}

=== FILE: realarith.dfy ===
/** Facts about real products and quotients, each proved in isolation: the
    verifier settles them alone, but not when several products meet in one
    proof, so callers pass product terms in as arguments. */
module RealArith {

  function PositiveFloor(x: real): (k: nat)
    ensures x >= 0.0 ==> k as real <= x < k as real + 1.0
  {
    if x < 0.0 then 0 else x.Floor
  }

  lemma MulMonotone(p: real, x: real, y: real)
    requires p >= 0.0 && x <= y
    ensures p * x <= p * y
  {
    assert p * y - p * x == p * (y - x);
  }

  lemma MulStrict(p: real, x: real, y: real)
    requires p > 0.0 && x < y
    ensures p * x < p * y
  {
    assert p * y - p * x == p * (y - x);
  }

  lemma MulPositive(x: real, y: real)
    requires x > 0.0 && y > 0.0
    ensures x * y > 0.0
  {
  }

  lemma MulNonNegative(x: real, y: real)
    requires x >= 0.0 && y >= 0.0
    ensures x * y >= 0.0
  {
  }

  lemma DivPositive(x: real, y: real)
    requires x > 0.0 && y > 0.0
    ensures x / y > 0.0
  {
    assert (x / y) * y == x;
    if x / y <= 0.0 {
      MulMonotone(y, x / y, 0.0);
    }
  }

  lemma ShrinkPositive(t: real, a: real, y: real)
    requires t > 0.0 && 0.0 < a < 1.0 && y == t * a
    ensures 0.0 < y
  {
  }

  lemma ShrinkLess(t: real, a: real, y: real)
    requires t > 0.0 && 0.0 < a < 1.0 && y == t * a
    ensures y < t
  {
  }

  /** y = t a lies strictly between 0 and t for positive t and 0 < a < 1. */
  lemma Shrink(t: real, a: real, y: real)
    requires t > 0.0 && 0.0 < a < 1.0 && y == t * a
    ensures 0.0 < y < t
  {
    ShrinkPositive(t, a, y);
    ShrinkLess(t, a, y);
  }

  /** Scaling by 0 < a < 1 keeps a value at or below a positive floor. */
  lemma ShrinkBelow(t: real, a: real, m: real, y: real)
    requires t <= m && m > 0.0 && 0.0 < a < 1.0 && y == t * a
    ensures y <= m
  {
    if t <= 0.0 {
      MulNonNegative(-t, a);
    } else {
      Shrink(t, a, y);
    }
  }

  /** The arithmetic of the linear bound: past (t - m) / a steps of size a,
      t has dropped below m. */
  lemma LinearBoundArith(t: real, m: real, a: real, k: real)
    requires a > 0.0 && k > (t - m) / a
    ensures t - k * a < m
  {
    var x := (t - m) / a;
    assert x * a == t - m;
    MulStrict(a, x, k);
  }

  /** x has decayed from t at least as Bernoulli's inequality says for n
      steps of factor a: x (1 + n (1 - a)) <= t. */
  predicate Decayed(x: real, t: real, a: real, n: nat) {
    x * (1.0 + (n as real) * (1.0 - a)) <= t
  }

  /** One step of Bernoulli's inequality: if x has decayed for n - 1 steps,
      then y = x a has decayed for n steps. */
  lemma DecayStep(x: real, a: real, t: real, n: nat, y: real)
    requires x > 0.0 && 0.0 < a < 1.0 && n >= 1
    requires Decayed(x, t, a, n - 1)
    requires y == x * a
    ensures y > 0.0
    ensures Decayed(y, t, a, n)
  {
    var m := (n - 1) as real;
    var k := n as real;
    var d := 1.0 - a;
    var q := 1.0 + m * d;
    var e := a * (1.0 + k * d);
    assert x * q <= t;
    MulNonNegative(m * d + d, d);
    assert e == q - (m * d + d) * d;
    MulMonotone(x, e, q);
    assert y * (1.0 + k * d) == x * e;
    ShrinkPositive(x, a, y);
  }

  /** t scaled n times by a. */
  function ScaleN(t: real, a: real, n: nat): real
    decreases n
  {
    if n == 0 then t else ScaleN(t, a, n - 1) * a
  }

  /** Bernoulli's inequality for repeated scaling: t a^n (1 + n (1 - a)) <= t. */
  lemma {:induction false} ScaleNDecays(t: real, a: real, n: nat)
    requires t > 0.0 && 0.0 < a < 1.0
    ensures ScaleN(t, a, n) > 0.0
    ensures Decayed(ScaleN(t, a, n), t, a, n)
    decreases n
  {
    if n > 0 {
      ScaleNDecays(t, a, n - 1);
      DecayStep(ScaleN(t, a, n - 1), a, t, n, ScaleN(t, a, n));
    }
  }

  /** The arithmetic of the geometric bound: once f = 1 + k(1 - a) exceeds
      t / m, any x with x f <= t lies below m. */
  lemma GeometricBoundArith(t: real, m: real, a: real, k: real, x: real)
    requires 0.0 < a < 1.0 && 0.0 < m < t
    requires k > (t / m) / (1.0 - a)
    requires x * (1.0 + k * (1.0 - a)) <= t
    ensures x < m
  {
    var d := 1.0 - a;
    var f := 1.0 + k * d;
    var y := (t / m) / d;
    assert y * d == t / m;
    MulStrict(d, y, k);
    assert m * (t / m) == t;
    MulStrict(m, t / m, f);
    if x >= m {
      MulMonotone(f, m, x);
      assert false;
    }
  }

  /** The geometric bound in the form the cooling proofs use: b steps with
      b = floor((t / m) / (1 - a)) + 1 and n >= b, and x (1 + n (1 - a)) <= t, put x
      below m. */
  lemma GeometricPastBound(t: real, m: real, a: real, b: nat, n: nat, x: real)
    requires 0.0 < a < 1.0 && 0.0 < m < t && n >= b
    requires b == PositiveFloor((t / m) / (1.0 - a)) + 1
    requires Decayed(x, t, a, n)
    ensures x < m
  {
    DivPositive(t, m);
    DivPositive(t / m, 1.0 - a);
    GeometricBoundArith(t, m, a, n as real, x);
  }
}
